=== FILE: README.md ===
# Subtask automation for a sprint board, modelled in Dafny

The modelled script talks to an issue tracker. It fetches the open issues of
the current sprint. For each parent issue that has no subtasks yet, it creates
subtasks based on the issue's labels:

- `BE` and `FE` together give three subtasks: "BE API Agreement", "BE" and "FE".
- `FE` alone gives one subtask, "FE".
- Every "FE" subtask is then assigned to the configured frontend user.

The script also has an export routine. It lists the done issues of a backend
user and reads each issue's sprint name out of the sprint custom field, which
holds text like `...Sprint@1a2b[id=1,name=Sprint 5,...]`.

The network calls are not modelled. What they would return, the fetched
issues, is a parameter instead, and every value they would send (queries,
create requests) is returned as data. The environment values the script reads
with `os.getenv` (the project key and the user names) are parameters too.

Modules, one per concern of `main.py`:

- `Results`: `Option`, `Result`, and the Python exceptions the parsing raises (`Fault`).
- `PyStr`: the Python string operations the script uses, with Python's own
  semantics. `find` answers -1 for a missing character. Slicing accepts
  negative and out-of-range bounds. `replace` and `split` are modelled too.
  The script never calls `join`; `PyStr.Join` is only the reference
  definition behind `Split`'s round trip and `SplitJoin`.
- `Tracker`: the `Issue` record and the shape and label predicates.
- `Jql`: the three query strings.
- `Filters`: the two list comprehensions over the sprint's issues.
- `SprintField`: `print_fields`.
- `Planner`: the body of the main loop and the loop itself.
- `Export`: `fetch_all_tickets`.

The rule followed is the one in `main.py`. The frontend subtask is created
whenever `FE` is present, whether or not `BE` is. A `BE`-only issue gets
nothing.

## Model

| member | source | states |
|---|---|---|
| PyStr.Find | main.py:71 | `find` gives -1 exactly when the character is absent. Otherwise it gives a position holding the character, with no earlier occurrence. |
| PyStr.SliceBound | main.py:71 | A slice bound is taken as is inside 0..n. A negative bound counts back from the end. Out-of-range bounds clamp to 0 or n. |
| PyStr.Slice | main.py:71 | Python slicing agrees with plain slicing on in-range bounds. Crossed bounds give "", whether the stop counts from the start or, when negative, from the end. A negative stop stops that many characters before the end. |
| PyStr.ReplaceUnchanged | main.py:70 | `replace` leaves a string unchanged when the pattern does not occur in it. |
| PyStr.ReplaceAtFirst | main.py:70 | `replace` keeps the text before the first occurrence, puts the replacement in its place, and carries on with the rest. |
| PyStr.Split | main.py:72 | `split` gives one piece more than there are separators. No piece contains the separator. Joining the pieces gives back the input. |
| PyStr.SplitWithoutSeparator | main.py:72 | A string without the separator splits into itself alone. |
| PyStr.SplitAtFirst | main.py:72 | `split` cuts at the first separator. |
| PyStr.SplitJoin | main.py:72 | `split` undoes `join` for a non-empty list of separator-free parts. |
| Tracker.AnyMatchingIsMembership | main.py:20-24 | `any(l for l in labels if l == t)` holds exactly when `t` is in the list, for any non-empty `t`. |
| Tracker.EmptyLabelNeverMatches | main.py:20-24 | The same test never holds for the empty label, because "" is falsy. This is why `AnyMatchingIsMembership` needs a non-empty target. The script only passes "BE" and "FE". |
| Tracker.HasBackendLabel | main.py:20-21 | `has_BE_label` holds exactly when the literal "BE" is among the labels. |
| Tracker.HasFrontendLabel | main.py:23-24 | `has_FE_label` holds exactly when the literal "FE" is among the labels. |
| Jql.SprintIssuesQuery | main.py:50-54 | The query always starts with the project and open-sprint clause. It is exactly that clause when the status is empty. |
| Jql.OpenIssuesQuery | main.py:56-57 | The driver's query starts with the same project and open-sprint clause. |
| Jql.DoneIssuesQuery | main.py:47-48 | The export query is scoped to the configured project. |
| Jql.StatusRoundTrip | main.py:50-54 | The status can be read back from the query. An empty status adds no filter. Any other status becomes exactly that filter. |
| Jql.StatusQueryInjective | main.py:50-54 | Different status arguments give different queries. |
| Filters.KeepIf | main.py:59-64 | A list comprehension keeps exactly the elements that pass its test and never grows the list. |
| Filters.KeepIfIsSubsequence | main.py:59-64 | The comprehension keeps the input order. |
| Filters.KeepIfAppend | main.py:59-64 | Filtering a concatenation gives the concatenation of the filtered parts. |
| Filters.KeepIfIdempotent | main.py:59-64 | Filtering twice by the same test is the same as filtering once. |
| Filters.SubtaskOpenIssues | main.py:59-61 | Keeps exactly the fetched subtasks whose status is not "Done". |
| Filters.OpenIssuesWithoutSubtask | main.py:63-64 | Keeps exactly the fetched non-subtask issues that have no subtasks. |
| Filters.FiltersOrderedAndDisjoint | main.py:59-64 | Both filters keep the fetched order. No issue is kept by both. |
| SprintField.BracketContent | main.py:71 | The bracket slice is the text between the first `[` and the first `]`. It is empty when `]` comes first. With no `]`, the slice runs to the end minus the last character. With no `[`, it starts at 0. An empty element gives "". |
| SprintField.ParseItem | main.py:72 | An item is accepted exactly when it holds one `=`. The two parts, joined by `=`, give back the item. Any other item raises the ValueError of `dict()` with its position and its part count. |
| SprintField.ParseItems | main.py:72 | Items are accepted exactly when each one holds one `=`. Otherwise the error is that of the first bad item. |
| SprintField.Dict | main.py:72 | `dict(pairs)` has exactly the keys that occur in the pairs. |
| SprintField.DictLastWins | main.py:72 | In `dict(pairs)` each key is bound to the value of its last occurrence. |
| SprintField.DictFromPairs | main.py:72 | Every binding of `dict(pairs)` is one of the pairs. |
| SprintField.ParseEntry | main.py:69-72 | The loop body splits the normalised bracket text into items. It succeeds exactly when every item holds one `=`. Otherwise it raises the ValueError of `dict()` for the first bad item, with that item's position and part count. On success, the keys are exactly the items' keys. A key whose item is the last with that key is bound to that item's value. No key or value holds `,` or `=`. |
| SprintField.PrintFieldsRejectsBadItem | main.py:67-73 | If any element's bracket text holds an item without exactly one `=`, the whole call raises a ValueError of `dict()`. |
| SprintField.LastValue | main.py:69-73 | The loop succeeds exactly when every element parses, and then returns the last element's dictionary. Otherwise it raises the first failure. |
| SprintField.PrintFields | main.py:67-73 | An empty list raises UnboundLocalError. A non-empty list succeeds exactly when every element parses, and only the last element decides the result. Otherwise the first failing element's error is raised. |
| SprintField.ReplaceKeeps | main.py:70 | The `", "` normalisation leaves text without `", "` unchanged. |
| SprintField.BracketRoundTrip | main.py:70-71 | Normalising `prefix[text]` and taking the bracket slice gives `text` back. The prefix must hold no bracket and no `", "`. |
| SprintField.ReplaceSplice | main.py:70 | In `a, b`, where `a` holds no `", "`, the normalisation keeps `a`, turns that `", "` into a space, and carries on with `b`. |
| SprintField.ParseItemOfItem | main.py:72 | `k=v` parses back to `(k, v)`. |
| SprintField.ParseItemsOfItems | main.py:72 | A list of `k=v` items parses back to its pairs. |
| SprintField.FormatThenParse | main.py:67-73 | For any non-empty list of plain pairs, `prefix[k1=v1,k2=v2,...]` parses back to the dictionary of those pairs. The prefix must hold no bracket and no `", "`. |
| SprintField.TwoPairsParse | main.py:67-73 | `prefix[k1=v1,k2=v2]` with different keys parses to `{k1: v1, k2: v2}`, and the normalisation leaves it unchanged. |
| SprintField.CommaSpaceInValue | main.py:67-73 | In `prefix[k1=v1,k2=a, b]` the `", "` inside the second value becomes one space: the result is `{k1: v1, k2: "a b"}`. |
| SprintField.SprintExample | main.py:67-73 | `["Sprint@1a2b[id=1,name=Sprint 5]"]` gives `{id: "1", name: "Sprint 5"}`. |
| SprintField.BareEntryExample | main.py:67-73 | `["[id=1,name=Sprint 5]"]`, the field text with nothing before the bracket, gives `{id: "1", name: "Sprint 5"}`. |
| SprintField.CommaInNameExample | main.py:67-73 | `["Sprint@1a2b[id=1,name=Sprint 5, Team A]"]` gives `{id: "1", name: "Sprint 5 Team A"}`. |
| Planner.Decide | main.py:99-130 | A subtask is skipped. An issue that already has subtasks is reported. Any other issue gets create requests, all sharing one payload. With `BE` and `FE` they are "BE API Agreement", "BE", "FE", and only the last is assigned to the frontend user. With `FE` only, a single assigned "FE" request. Without `FE`, none. |
| Planner.PlanIssue | main.py:99-130 | Subtasks, issues with subtasks, and issues without `FE` get no requests. Every request carries the parent's template payload. |
| Planner.OnlySummaryDiffers | main.py:106-128 | All requests for one parent share the payload: the project key, an empty description, type "Sub-task" and the parent's key. Only summary and assignee differ. |
| Planner.PlanAllOrigin | main.py:99-130 | Every request of a run belongs to an eligible, `FE`-labelled fetched issue. |
| Planner.PlanAllCount | main.py:114-130 | A run sends 3 requests per eligible issue with both labels and 1 per eligible issue with `FE` only. |
| Planner.ReportedKeysExact | main.py:102-104 | The issues reported as already having subtasks are exactly the non-subtask issues with subtasks, each reported once. |
| Planner.RunDriver | main.py:96-130 | The main loop sends the planned requests of each issue in fetched order, sends the expected number of them, and reports exactly the keys of issues that already have subtasks. |
| Export.ExportRow | main.py:83-86 | A row is produced exactly when the sprint field is a list that parses and has a "name" key. The row carries that sprint name and the issue's key, summary, type and status. Story points are the field's value, or "-" when the field is absent. A missing sprint field raises KeyError for its key. A null one raises TypeError. An error from `print_fields` is raised unchanged. A sprint without "name" raises KeyError for "name". |
| Export.Collect | main.py:83-86 | A loop that stops at the first failure gives back the values produced before it, in order, and the failing element's error. Without a failure it gives one value per element. |
| Export.ExportAll | main.py:83-86 | Export prints one row per issue, in order, up to the first issue whose row fails. That issue's exception is raised and nothing after it is printed. When every row succeeds there is one row per issue. |
| Export.MissingStoryPointsExample | main.py:85 | An issue without the story-point field exports with "-". |

## Left out

- Building the tracker client is not modelled: server address and token authentication (main.py:40-45). Every `search_issues`, `create_issue` and `update` call is left out too. These are network calls into a library that is not part of this model. Fetched issues come in as a parameter. Create requests and the follow-up assignee update go out as `Request` values.
- The search library's result paging is not modelled. The fetched sequence is whatever the search returned.
- Remote failures and partial progress are left out: a create that fails, or an assignment that fails after its create succeeded.
- Environment variables are passed in as parameters (main.py:76-78, 91-93). An unset variable is not modelled. In the f-string queries it would become the text "None" (main.py:48, 51, 53, 57). In the create payload and the assignee update it would be sent as a null (main.py:107, 129).
- `pretty`, `get_csv`, `print_issue`, `print_json` and every `print` are console output. The export produces `Row` records instead of comma-joined lines. The "already have subtask" message is modelled as the reported key.
- Story-point values are taken as the text the script would print. Number formatting is not modelled.
- The unused `click` import.
- PyStr.Replace: requires a non-empty pattern. Python's behaviour for an empty pattern is not modelled, and the script only replaces `", "`.
- Jql.OpenIssuesQuery: the contract states only the project and sprint scoping. The rest of the text is the literal query.
- Jql.DoneIssuesQuery: the contract states only the project scoping. The rest of the text is the literal query.

=== FILE: export.dfy ===
/** `fetch_all_tickets`: one flat record per done issue of the backend
    user, with the sprint name read from the sprint field and the story
    points, or "-" when the issue lacks that field. The issues are those
    the done-issues query returned; they are a parameter here. */
module Export {
  import opened Results
  import opened Tracker
  import SprintField

  /** Printed when the story-point field is absent. */
  const NoStoryPoints: string := "-"

  /** One printed line: key, summary, type, status, sprint name, points. */
  datatype Row = Row(
    key: string,
    summary: string,
    issueType: string,
    status: string,
    sprintName: string,
    storyPoints: string)

  /** The raw key of the sprint custom field. */
  const SprintFieldKey: string := "customfield_10621"
  /** The sprint attribute the row prints. */
  const NameKey: string := "name"

  /** The loop body for one issue: each way it can raise, and otherwise
      the row it prints. */
  function ExportRow(issue: Issue): (r: Result<Row, Fault>)
    ensures issue.sprintField.Missing? ==> r == Err(MissingKey(SprintFieldKey))
    ensures issue.sprintField.Null? ==> r == Err(NotIterable)
    ensures issue.sprintField.Present? && SprintField.PrintFields(issue.sprintField.value).Err?
            ==> r == Err(SprintField.PrintFields(issue.sprintField.value).error)
    ensures issue.sprintField.Present? && SprintField.PrintFields(issue.sprintField.value).Ok?
            && NameKey !in SprintField.PrintFields(issue.sprintField.value).value
            ==> r == Err(MissingKey(NameKey))
    ensures r.Ok? <==>
              && issue.sprintField.Present?
              && SprintField.PrintFields(issue.sprintField.value).Ok?
              && NameKey in SprintField.PrintFields(issue.sprintField.value).value
    ensures r.Ok? && issue.sprintField.Present? && SprintField.PrintFields(issue.sprintField.value).Ok?
            && NameKey in SprintField.PrintFields(issue.sprintField.value).value
            ==> r.value.sprintName == SprintField.PrintFields(issue.sprintField.value).value[NameKey]
    ensures r.Ok? && issue.storyPoints.None? ==> r.value.storyPoints == NoStoryPoints
    ensures r.Ok? && issue.storyPoints.Some? ==> r.value.storyPoints == issue.storyPoints.value
    ensures r.Ok? ==> (r.value.key == issue.key && r.value.summary == issue.summary
                       && r.value.issueType == issue.issueType && r.value.status == issue.status)
  {
    match issue.sprintField
    case Missing => Err(MissingKey(SprintFieldKey))
    case Null => Err(NotIterable)
    case Present(values) =>
      var sprint :- SprintField.PrintFields(values);
      if NameKey !in sprint then Err(MissingKey(NameKey))
      else
        var points := match issue.storyPoints
          case Some(p) => p
          case None => NoStoryPoints;
        Ok(Row(issue.key, issue.summary, issue.issueType, issue.status, sprint[NameKey], points))
  }

  /** A loop that applies `step` to each element in order and stops at the
      first failure. It gives back the values produced before the stop,
      and the fault of the failing element, if any. */
  method Collect<A, T>(xs: seq<A>, step: A -> Result<T, Fault>) returns (values: seq<T>, fault: Option<Fault>)
    ensures fault.None? <==> forall i :: 0 <= i < |xs| ==> step(xs[i]).Ok?
    ensures fault.None? ==> |values| == |xs|
    ensures fault.Some? ==> |values| < |xs| && step(xs[|values|]) == Err(fault.value)
    ensures |values| <= |xs|
    ensures forall i :: 0 <= i < |values| ==> step(xs[i]).Ok? && values[i] == step(xs[i]).value
  {
    values := [];
    var n := 0;
    while n < |xs|
      invariant n <= |xs|
      invariant |values| == n
      invariant forall i :: 0 <= i < n ==> step(xs[i]).Ok? && values[i] == step(xs[i]).value
    {
      var out := step(xs[n]);
      if out.Err? {
        return values, Some(out.error);
      }
      values := values + [out.value];
      n := n + 1;
    }
    return values, None;
  }

  /** The whole loop: the rows printed, in issue order, up to the first
      issue whose row fails, and the exception that issue raises. */
  method ExportAll(issues: seq<Issue>) returns (rows: seq<Row>, fault: Option<Fault>)
    ensures fault.None? <==> forall i :: 0 <= i < |issues| ==> ExportRow(issues[i]).Ok?
    ensures fault.None? ==> |rows| == |issues|
    ensures fault.Some? ==> |rows| < |issues| && ExportRow(issues[|rows|]) == Err(fault.value)
    ensures |rows| <= |issues|
    ensures forall i :: 0 <= i < |rows| ==> ExportRow(issues[i]).Ok? && rows[i] == ExportRow(issues[i]).value
  {
    rows, fault := Collect(issues, ExportRow);
  }

  /** A done issue without the story-point field still exports, with "-". */
  lemma MissingStoryPointsExample()
    ensures ExportRow(Issue("P-1", "Login", "Story", false, "Done", [], [],
                            Present(["Sprint@1a2b" + "[" + ("id" + "=" + "1" + "," + "name" + "=" + "Sprint 5") + "]"]),
                            None))
         == Ok(Row("P-1", "Login", "Story", "Done", "Sprint 5", NoStoryPoints))
  {
    SprintField.SprintExample();
  }
}

=== FILE: filters.dfy ===
/** The list comprehensions that narrow the current sprint's issues. The
    fetched sequence is whatever `get_current_sprint_issues()` returned
    (the sprint query without a status filter); it is a parameter here. */
module Filters {
  import opened Tracker

  /** `[x for x in s if keep(x)]`. */
  function KeepIf<T(!new)>(s: seq<T>, keep: T -> bool): (r: seq<T>)
    ensures |r| <= |s|
    ensures forall x :: x in r <==> x in s && keep(x)
  {
    if |s| == 0 then []
    else (if keep(s[0]) then [s[0]] else []) + KeepIf(s[1..], keep)
  }

  /** `r` is `s` with some elements left out, the rest in their order. */
  ghost predicate SubsequenceOf<T>(r: seq<T>, s: seq<T>)
    decreases |s|
  {
    if |r| == 0 then true
    else if |s| == 0 then false
    else if r[0] == s[0] then SubsequenceOf(r[1..], s[1..])
    else SubsequenceOf(r, s[1..])
  }

  /** Filtering keeps the input order. */
  lemma {:induction false} KeepIfIsSubsequence<T(!new)>(s: seq<T>, keep: T -> bool)
    ensures SubsequenceOf(KeepIf(s, keep), s)
  {
    if |s| > 0 {
      KeepIfIsSubsequence(s[1..], keep);
      var r := KeepIf(s, keep);
      if keep(s[0]) {
        assert r[1..] == KeepIf(s[1..], keep);
      } else {
        assert r == KeepIf(s[1..], keep);
        if |r| > 0 {
          assert r[0] in r;
          assert r[0] != s[0];
        }
      }
    }
  }

  /** Filtering a concatenation filters each part in turn. */
  lemma {:induction false} KeepIfAppend<T(!new)>(a: seq<T>, b: seq<T>, keep: T -> bool)
    ensures KeepIf(a + b, keep) == KeepIf(a, keep) + KeepIf(b, keep)
  {
    if |a| == 0 {
      assert a + b == b;
    } else {
      assert (a + b)[1..] == a[1..] + b;
      KeepIfAppend(a[1..], b, keep);
    }
  }

  /** Filtering twice by the same test changes nothing more. */
  lemma {:induction false} KeepIfIdempotent<T(!new)>(s: seq<T>, keep: T -> bool)
    ensures KeepIf(KeepIf(s, keep), keep) == KeepIf(s, keep)
  {
    if |s| > 0 {
      KeepIfIdempotent(s[1..], keep);
      if keep(s[0]) {
        assert KeepIf(s, keep) == [s[0]] + KeepIf(s[1..], keep);
        KeepIfAppend([s[0]], KeepIf(s[1..], keep), keep);
        assert [s[0]][1..] == [];
        assert KeepIf([s[0]], keep) == [s[0]] + KeepIf([], keep);
        assert KeepIf([s[0]], keep) == [s[0]];
        assert KeepIf(KeepIf(s, keep), keep) == [s[0]] + KeepIf(KeepIf(s[1..], keep), keep);
      } else {
        assert KeepIf(s, keep) == KeepIf(s[1..], keep);
      }
    }
  }

  /** `get_current_sprint_subtask_open_issues`: the subtasks not yet done. */
  function SubtaskOpenIssues(fetched: seq<Issue>): (r: seq<Issue>)
    ensures forall x :: x in r <==> x in fetched && x.isSubtask && x.status != DoneStatus
  {
    KeepIf(fetched, (x: Issue) => IsSubtask(x) && IsNotDone(x))
  }

  /** `get_current_sprint_open_issues_without_subtask`: the issues that are
      not subtasks and have no subtask of their own. */
  function OpenIssuesWithoutSubtask(fetched: seq<Issue>): (r: seq<Issue>)
    ensures forall x :: x in r <==> x in fetched && !x.isSubtask && |x.subtasks| == 0
  {
    KeepIf(fetched, (x: Issue) => HasNoSubtask(x) && !IsSubtask(x))
  }

  /** Both filters keep their input order, and no issue is kept by both. */
  lemma FiltersOrderedAndDisjoint(fetched: seq<Issue>)
    ensures SubsequenceOf(SubtaskOpenIssues(fetched), fetched)
    ensures SubsequenceOf(OpenIssuesWithoutSubtask(fetched), fetched)
    ensures forall x :: x in SubtaskOpenIssues(fetched) ==> x !in OpenIssuesWithoutSubtask(fetched)
  {
    KeepIfIsSubsequence(fetched, (x: Issue) => IsSubtask(x) && IsNotDone(x));
    KeepIfIsSubsequence(fetched, (x: Issue) => HasNoSubtask(x) && !IsSubtask(x));
  }
}

=== FILE: jql.dfy ===
/** The query strings the client sends to the tracker's search. The
    project key is the configured project, spliced in as text. */
module Jql {

  /** Sprint query without a status filter; note the trailing space. */
  function SprintPrefix(project: string): string
  {
    "project=" + project + " and sprint in openSprints() "
  }

  /** Opening of the status clause, up to the quote around the status. */
  const StatusOpening: string := "and status = \""

  /** The status clause appended when a status is asked for. */
  function StatusClause(status: string): string
  {
    StatusOpening + status + "\""
  }

  /** Query of `get_current_sprint_issues(status)`: the open-sprint issues
      of the project, further restricted to `status` when it is non-empty. */
  function SprintIssuesQuery(project: string, status: string): (q: string)
    ensures |q| >= |SprintPrefix(project)| && q[..|SprintPrefix(project)|] == SprintPrefix(project)
    ensures |status| == 0 <==> q == SprintPrefix(project)
  {
    if |status| > 0 then SprintPrefix(project) + StatusClause(status)
    else SprintPrefix(project)
  }

  /** Query of `get_current_sprint_open_issues`: open-sprint issues of
      the project that are not done. */
  function OpenIssuesQuery(project: string): (q: string)
    ensures |q| > |SprintPrefix(project)| && q[..|SprintPrefix(project)|] == SprintPrefix(project)
  {
    SprintPrefix(project) + "and status != Done"
  }

  /** Query of `get_all_issues(user)`: the project's done issues that were
      ever assigned to `user`. */
  function DoneIssuesQuery(project: string, user: string): (q: string)
    ensures |q| > |"project=" + project + " and "|
    ensures q[..|"project=" + project + " and "|] == "project=" + project + " and "
  {
    "project=" + project + " and (assignee was '" + user + "') and status = Done"
  }

  /** What a sprint query filters on beyond the sprint. */
  datatype StatusFilter = AnyStatus | OnlyStatus(status: string) | NotSprintQuery

  /** Reads the status filter back out of a sprint query for `project`. */
  function StatusFilterOf(project: string, q: string): StatusFilter
  {
    var pre := SprintPrefix(project);
    var open := StatusOpening;
    if q == pre then AnyStatus
    else if |q| >= |pre| + |open| + 2 && q[..|pre|] == pre
         && q[|pre|..|pre| + |open|] == open && q[|q| - 1] == '"'
    then OnlyStatus(q[|pre| + |open|..|q| - 1])
    else NotSprintQuery
  }

  /** The status argument is recoverable from the query: an empty one
      adds no filter, any other one becomes exactly that filter. */
  lemma {:induction false} StatusRoundTrip(project: string, status: string)
    ensures StatusFilterOf(project, SprintIssuesQuery(project, status))
         == if |status| == 0 then AnyStatus else OnlyStatus(status)
  {
    var pre := SprintPrefix(project);
    var open := StatusOpening;
    if |status| > 0 {
      var q := SprintIssuesQuery(project, status);
      assert q == pre + open + status + "\"";
      assert q[..|pre|] == pre;
      assert q[|pre|..|pre| + |open|] == open;
      assert q[|pre| + |open|..|q| - 1] == status;
    }
  }

  /** Hence different status arguments always give different queries. */
  lemma StatusQueryInjective(project: string, s1: string, s2: string)
    requires SprintIssuesQuery(project, s1) == SprintIssuesQuery(project, s2)
    ensures s1 == s2
  {
    StatusRoundTrip(project, s1);
    StatusRoundTrip(project, s2);
  }
}

=== FILE: planner.dfy ===
/** The per-issue body of the script's main loop: which subtasks to
    create under each open sprint issue. Creation requests are returned
    as values, in the order the script sends them, instead of being sent. */
module Planner {
  import opened Results
  import opened Tracker
  import Filters

  /** Issue type name of every created subtask. */
  const SubtaskType: string := "Sub-task"
  /** Summary of the joint API-agreement subtask. */
  const ApiAgreementSummary: string := "BE API Agreement"

  /** The fields shared by every create call for one parent: project key,
      empty description, subtask type and parent key. */
  datatype Payload = Payload(project: string, description: string, issueType: string, parent: string)

  /** One `create_issue` call: the shared payload plus its summary, and the
      user the created issue is then assigned to, if any. */
  datatype Request = Request(payload: Payload, summary: string, assignee: Option<string>)

  /** What the loop body does with one issue. */
  datatype Decision =
    /** `continue`: the issue is itself a subtask. */
    | SkipSubtask
    /** `continue` after reporting "already have subtask". */
    | AlreadyHasSubtask
    /** Send these create requests, in order (possibly none). */
    | Create(requests: seq<Request>)

  /** The dictionary built once per parent before any summary is set. */
  function Template(project: string, parent: string): Payload
  {
    Payload(project, "", SubtaskType, parent)
  }

  /** An issue the loop body gets past both `continue`s for. */
  predicate Eligible(issue: Issue)
  {
    !IsSubtask(issue) && HasNoSubtask(issue)
  }

  /** A parent issue whose subtasks already exist: the loop reports it. */
  predicate AlreadySplit(issue: Issue)
  {
    !IsSubtask(issue) && !HasNoSubtask(issue)
  }

  /** The loop body for one issue. `project` is the configured project key
      and `feUser` the configured frontend user name. */
  function Decide(issue: Issue, project: string, feUser: string): (d: Decision)
    ensures d.SkipSubtask? <==> issue.isSubtask
    ensures d.AlreadyHasSubtask? <==> !issue.isSubtask && |issue.subtasks| > 0
    ensures d.Create? <==> !issue.isSubtask && |issue.subtasks| == 0
    ensures d.Create? ==> forall r :: r in d.requests ==> r.payload == Template(project, issue.key)
    ensures d.Create? && BackendLabel in issue.labels && FrontendLabel in issue.labels ==>
              && |d.requests| == 3
              && d.requests[0].summary == ApiAgreementSummary && d.requests[0].assignee == None
              && d.requests[1].summary == BackendLabel && d.requests[1].assignee == None
              && d.requests[2].summary == FrontendLabel && d.requests[2].assignee == Some(feUser)
    ensures d.Create? && BackendLabel !in issue.labels && FrontendLabel in issue.labels ==>
              && |d.requests| == 1
              && d.requests[0].summary == FrontendLabel && d.requests[0].assignee == Some(feUser)
    ensures d.Create? && FrontendLabel !in issue.labels ==> d.requests == []
  {
    if IsSubtask(issue) then SkipSubtask
    else if !HasNoSubtask(issue) then AlreadyHasSubtask
    else
      var base := Template(project, issue.key);
      var joint :=
        if HasBackendLabel(issue) && HasFrontendLabel(issue)
        then [Request(base, ApiAgreementSummary, None), Request(base, BackendLabel, None)]
        else [];
      var frontend :=
        if HasFrontendLabel(issue) then [Request(base, FrontendLabel, Some(feUser))] else [];
      Create(joint + frontend)
  }

  /** The create requests the loop body sends for one issue. */
  function PlanIssue(issue: Issue, project: string, feUser: string): (rs: seq<Request>)
    ensures !Eligible(issue) ==> rs == []
    ensures FrontendLabel !in issue.labels ==> rs == []
    ensures forall r :: r in rs ==> r.payload == Template(project, issue.key)
  {
    var d := Decide(issue, project, feUser);
    if d.Create? then d.requests else []
  }

  /** Two requests for the same parent differ at most in summary and
      assignee: the payload sent is the same dictionary each time. */
  lemma OnlySummaryDiffers(issue: Issue, project: string, feUser: string, i: nat, j: nat)
    requires i < |PlanIssue(issue, project, feUser)| && j < |PlanIssue(issue, project, feUser)|
    ensures PlanIssue(issue, project, feUser)[i].payload == PlanIssue(issue, project, feUser)[j].payload
    ensures PlanIssue(issue, project, feUser)[i].payload.description == ""
    ensures PlanIssue(issue, project, feUser)[i].payload.issueType == SubtaskType
    ensures PlanIssue(issue, project, feUser)[i].payload.parent == issue.key
  {
    var rs := PlanIssue(issue, project, feUser);
    assert rs[i] in rs && rs[j] in rs;
  }

  /** All requests of a run, in order: the loop body applied to each
      fetched issue in turn. */
  function PlanAll(issues: seq<Issue>, project: string, feUser: string): seq<Request>
  {
    if |issues| == 0 then []
    else PlanIssue(issues[0], project, feUser) + PlanAll(issues[1..], project, feUser)
  }

  /** Every request of a run belongs to an eligible, frontend-labelled
      fetched issue: subtasks and issues with subtasks get nothing. */
  lemma {:induction false} PlanAllOrigin(issues: seq<Issue>, project: string, feUser: string)
    ensures forall r :: r in PlanAll(issues, project, feUser) ==>
              exists i :: 0 <= i < |issues| && Eligible(issues[i])
                && FrontendLabel in issues[i].labels && r.payload == Template(project, issues[i].key)
  {
    if |issues| > 0 {
      PlanAllOrigin(issues[1..], project, feUser);
      assert forall i :: 1 <= i < |issues| ==> issues[i] == issues[1..][i - 1];
    }
  }

  /** How many requests an issue gets by its labels alone: three with both
      labels, one with the frontend label only, none otherwise. */
  function ExpectedCount(issue: Issue): nat
  {
    if !Eligible(issue) || FrontendLabel !in issue.labels then 0
    else if BackendLabel in issue.labels then 3
    else 1
  }

  function TotalExpected(issues: seq<Issue>): nat
  {
    if |issues| == 0 then 0 else ExpectedCount(issues[0]) + TotalExpected(issues[1..])
  }

  /** A run sends exactly the requests the labels call for. */
  lemma {:induction false} PlanAllCount(issues: seq<Issue>, project: string, feUser: string)
    ensures |PlanAll(issues, project, feUser)| == TotalExpected(issues)
  {
    if |issues| > 0 {
      PlanAllCount(issues[1..], project, feUser);
      var d := Decide(issues[0], project, feUser);
    }
  }

  /** Keys of the issues reported as already having subtasks, in order. */
  function ReportedKeys(issues: seq<Issue>): seq<string>
  {
    if |issues| == 0 then []
    else (if AlreadySplit(issues[0]) then [issues[0].key] else [])
         + ReportedKeys(issues[1..])
  }

  /** Each issue that has subtasks is reported once, at its place in the
      fetched order, and nothing else is reported. */
  lemma {:induction false} ReportedKeysExact(issues: seq<Issue>)
    ensures |ReportedKeys(issues)| == |Filters.KeepIf(issues, (x: Issue) => !x.isSubtask && |x.subtasks| > 0)|
    ensures forall k :: k in ReportedKeys(issues) <==>
              exists i :: 0 <= i < |issues| && issues[i].key == k
                && !issues[i].isSubtask && |issues[i].subtasks| > 0
  {
    if |issues| > 0 {
      ReportedKeysExact(issues[1..]);
      assert forall i :: 1 <= i < |issues| ==> issues[i] == issues[1..][i - 1];
    }
  }

  lemma AppendAssociates<T>(a: seq<T>, b: seq<T>, c: seq<T>)
    ensures (a + b) + c == a + (b + c)
  {
  }

  /** The script's main loop over the fetched open sprint issues: the
      create requests it sends, in order, and the keys it reports as
      already having subtasks. */
  method RunDriver(issues: seq<Issue>, project: string, feUser: string)
    returns (requests: seq<Request>, reported: seq<string>)
    ensures requests == PlanAll(issues, project, feUser)
    ensures |requests| == TotalExpected(issues)
    ensures reported == ReportedKeys(issues)
  {
    requests := [];
    reported := [];
    var n := 0;
    assert issues[n..] == issues;
    while n < |issues|
      invariant n <= |issues|
      invariant requests + PlanAll(issues[n..], project, feUser) == PlanAll(issues, project, feUser)
      invariant reported + ReportedKeys(issues[n..]) == ReportedKeys(issues)
    {
      var issue := issues[n];
      assert issues[n..][0] == issue && issues[n..][1..] == issues[n + 1..];
      assert PlanAll(issues[n..], project, feUser)
          == PlanIssue(issue, project, feUser) + PlanAll(issues[n + 1..], project, feUser);
      assert ReportedKeys(issues[n..])
          == (if AlreadySplit(issue) then [issue.key] else [])
             + ReportedKeys(issues[n + 1..]);
      var d := Decide(issue, project, feUser);
      var sent: seq<Request> := [];
      var notice: seq<string> := [];
      if d.AlreadyHasSubtask? {
        notice := [issue.key];
      } else if d.Create? {
        sent := d.requests;
      }
      assert sent == PlanIssue(issue, project, feUser);
      AppendAssociates(requests, sent, PlanAll(issues[n + 1..], project, feUser));
      AppendAssociates(reported, notice, ReportedKeys(issues[n + 1..]));
      requests, reported := requests + sent, reported + notice;
      n := n + 1;
    }
    assert issues[n..] == [];
    PlanAllCount(issues, project, feUser);
  }
}

=== FILE: pystr.dfy ===
/** The handful of Python `str` operations the script relies on, with
    Python's semantics written out: `find` answering -1, slicing with
    negative and out-of-range bounds, `replace` and `split`. `Join` is not
    called by the script; it is the reference definition that `Split`'s
    round trip and `SplitJoin` are stated against. */
module PyStr {

  /** Number of occurrences of `c` in `s`. */
  function Count(s: string, c: char): nat
  {
    if |s| == 0 then 0
    else (if s[0] == c then 1 else 0) + Count(s[1..], c)
  }

  /** `s.find(c)` for a one-character needle: the first position of `c`,
      or -1 when `s` does not contain it. */
  function Find(s: string, c: char): (r: int)
    ensures -1 <= r < |s|
    ensures r == -1 <==> c !in s
    ensures 0 <= r < |s| ==> s[r] == c && c !in s[..r]
  {
    if |s| == 0 then -1
    else if s[0] == c then 0
    else
      var k := Find(s[1..], c);
      if k == -1 then -1 else k + 1
  }

  /** How Python turns a slice bound into a position: a negative bound
      counts from the end, and the result is clamped into 0..n. */
  function SliceBound(i: int, n: nat): (r: nat)
    ensures r <= n
    ensures 0 <= i <= n ==> r == i
    ensures -(n as int) <= i < 0 ==> r == n + i
    ensures i > n ==> r == n
    ensures i < -(n as int) ==> r == 0
  {
    if i < 0 then (if n + i < 0 then 0 else n + i)
    else if i > n then n
    else i
  }

  /** `s[start:stop]`: the characters between the two normalised bounds,
      or nothing when the bounds cross. */
  function Slice(s: string, start: int, stop: int): (r: string)
    ensures |r| <= |s|
    ensures 0 <= start <= stop <= |s| ==> r == s[start..stop]
    ensures 0 <= stop <= start ==> r == []
    ensures -|s| <= stop < 0 && 0 <= start <= |s| + stop ==> r == s[start..|s| + stop]
    ensures -|s| <= stop < 0 && |s| + stop <= start ==> r == []
  {
    var lo := SliceBound(start, |s|);
    var hi := SliceBound(stop, |s|);
    if lo < hi then s[lo..hi] else []
  }

  /** Whether `pat` occurs in `s` starting at position `i`. */
  predicate OccursAt(s: string, pat: string, i: nat)
  {
    i + |pat| <= |s| && s[i..i + |pat|] == pat
  }

  /** `s.replace(pat, rep)`: scan left to right and replace every
      non-overlapping occurrence of `pat`. */
  function Replace(s: string, pat: string, rep: string): string
    requires |pat| > 0
    decreases |s|
  {
    if |s| < |pat| then s
    else if s[..|pat|] == pat then rep + Replace(s[|pat|..], pat, rep)
    else [s[0]] + Replace(s[1..], pat, rep)
  }

  /** `pat` occurs at `i` and nowhere before. */
  predicate FirstOccurrence(s: string, pat: string, i: nat)
  {
    OccursAt(s, pat, i) && forall j: nat :: j < i ==> !OccursAt(s, pat, j)
  }

  /** Dropping the first character moves every occurrence one place left. */
  lemma OccursShift(s: string, pat: string, j: nat)
    requires |s| > 0
    ensures OccursAt(s[1..], pat, j) <==> OccursAt(s, pat, j + 1)
  {
    if j + 1 + |pat| <= |s| {
      assert s[1..][j..j + |pat|] == s[j + 1..j + 1 + |pat|];
    }
  }

  /** A string in which `pat` never occurs comes back unchanged. */
  lemma {:induction false} ReplaceUnchanged(s: string, pat: string, rep: string)
    requires |pat| > 0
    requires forall i: nat :: !OccursAt(s, pat, i)
    ensures Replace(s, pat, rep) == s
    decreases |s|
  {
    if |s| >= |pat| {
      assert !OccursAt(s, pat, 0);
      assert s[..|pat|] == s[0..|pat|];
      forall i: nat ensures !OccursAt(s[1..], pat, i) {
        assert !OccursAt(s, pat, i + 1);
        OccursShift(s, pat, i);
      }
      ReplaceUnchanged(s[1..], pat, rep);
    }
  }

  /** `replace` keeps everything before the first occurrence, puts `rep`
      in its place and carries on after it. */
  lemma ReplaceAtFirst(s: string, pat: string, rep: string, i: nat)
    requires |pat| > 0
    requires FirstOccurrence(s, pat, i)
    ensures Replace(s, pat, rep) == s[..i] + rep + Replace(s[i + |pat|..], pat, rep)
  {
    var p, rest := s[..i], s[i + |pat|..];
    ThreeParts(s, i, i + |pat|);
    ReplaceAfterClearPrefix(p, pat, rest, rep);
  }

  lemma ThreeParts<T>(s: seq<T>, i: nat, k: nat)
    requires i <= k <= |s|
    ensures s == s[..i] + s[i..k] + s[k..]
  {
  }

  /** The induction behind `ReplaceAtFirst`, on the occurrence-free prefix. */
  lemma {:induction false} ReplaceAfterClearPrefix(p: string, pat: string, rest: string, rep: string)
    requires |pat| > 0
    requires forall j: nat :: j < |p| ==> !OccursAt(p + pat + rest, pat, j)
    ensures Replace(p + pat + rest, pat, rep) == p + rep + Replace(rest, pat, rep)
    decreases |p|
  {
    var s := p + pat + rest;
    if |p| == 0 {
      assert s == pat + rest;
      assert s[..|pat|] == pat;
      assert s[|pat|..] == rest;
    } else {
      assert !OccursAt(s, pat, 0);
      assert s[..|pat|] != pat by { assert s[..|pat|] == s[0..|pat|]; }
      var q := p[1..];
      assert s[1..] == q + pat + rest;
      forall j: nat | j < |q| ensures !OccursAt(q + pat + rest, pat, j) {
        assert !OccursAt(s, pat, j + 1);
        OccursShift(s, pat, j);
      }
      ReplaceAfterClearPrefix(q, pat, rest, rep);
      calc {
        Replace(s, pat, rep);
        [s[0]] + Replace(s[1..], pat, rep);
        [p[0]] + (q + rep + Replace(rest, pat, rep));
        { assert p == [p[0]] + q; }
        p + rep + Replace(rest, pat, rep);
      }
    }
  }

  /** `sep.join(parts)`. */
  function Join(parts: seq<string>, sep: char): string
  {
    if |parts| == 0 then ""
    else if |parts| == 1 then parts[0]
    else parts[0] + [sep] + Join(parts[1..], sep)
  }

  /** `s.split(sep)` for a one-character separator: the pieces between
      separators, always at least one, and joining them back gives `s`. */
  function Split(s: string, sep: char): (r: seq<string>)
    ensures |r| == Count(s, sep) + 1
    ensures forall i :: 0 <= i < |r| ==> sep !in r[i]
    ensures Join(r, sep) == s
  {
    if |s| == 0 then [""]
    else if s[0] == sep then
      var rest := Split(s[1..], sep);
      assert s == [sep] + s[1..];
      [""] + rest
    else
      var rest := Split(s[1..], sep);
      var r := [[s[0]] + rest[0]] + rest[1..];
      assert forall i :: 1 <= i < |r| ==> r[i] == rest[i];
      assert s == [s[0]] + s[1..];
      r
  }

  /** A piece without the separator splits into itself alone. */
  lemma {:induction false} SplitWithoutSeparator(s: string, sep: char)
    requires sep !in s
    ensures Split(s, sep) == [s]
  {
    if |s| > 0 {
      assert sep !in s[1..];
      SplitWithoutSeparator(s[1..], sep);
    }
  }

  /** Splitting stops at the first separator. */
  lemma {:induction false} SplitAtFirst(a: string, t: string, sep: char)
    requires sep !in a
    ensures Split(a + [sep] + t, sep) == [a] + Split(t, sep)
  {
    if |a| == 0 {
      assert a + [sep] + t == [sep] + t;
      assert ([sep] + t)[1..] == t;
    } else {
      assert (a + [sep] + t)[1..] == a[1..] + [sep] + t;
      assert sep !in a[1..];
      SplitAtFirst(a[1..], t, sep);
      assert [a[0]] + a[1..] == a;
    }
  }

  /** `split` undoes `join` when no part contains the separator and there
      is at least one part (an empty list joins to "", which splits to [""]). */
  lemma {:induction false} SplitJoin(parts: seq<string>, sep: char)
    requires |parts| > 0
    requires forall i :: 0 <= i < |parts| ==> sep !in parts[i]
    ensures Split(Join(parts, sep), sep) == parts
  {
    if |parts| == 1 {
      SplitWithoutSeparator(parts[0], sep);
    } else {
      SplitJoin(parts[1..], sep);
      SplitAtFirst(parts[0], Join(parts[1..], sep), sep);
      assert [parts[0]] + parts[1..] == parts;
    }
  }
}

=== FILE: results.dfy ===
/** Failure-compatible wrappers shared by the model, and the Python
    exceptions the script can raise while it parses issue fields. */
module Results {

  /** A value that may be absent: a missing dictionary key, an unset
      environment value, a custom field the issue does not carry. */
  datatype Option<+T> = None | Some(value: T)

  /** Either a computed value or the exception that aborts the script. */
  datatype Result<+T, +E> = Ok(value: T) | Err(error: E) {

    predicate IsFailure() {
      Err?
    }

    function PropagateFailure<U>(): Result<U, E>
      requires Err?
    {
      Err(error)
    }

    function Extract(): T
      requires Ok?
    {
      value
    }
  }

  /** The exceptions the parsing code raises; none of them is caught. */
  datatype Fault =
    /** `return res` after a loop that never ran (UnboundLocalError). */
    | UnboundResult
    /** `dict(...)` met an element of the wrong length (ValueError):
        the element's position and its length, 2 being required. */
    | BadElement(index: nat, length: nat)
    /** Iterating a field whose value is null (TypeError). */
    | NotIterable
    /** Subscripting a dictionary with a key it lacks (KeyError). */
    | MissingKey(key: string)
}

=== FILE: sprint_field.dfy ===
/** `print_fields`: reads the key/value pairs out of the sprint custom
    field, a list of strings shaped like `...Sprint@1a2b[id=1,name=Sprint 5]`. */
module SprintField {
  import opened Results
  import opened PyStr

  type Pair = (string, string)

  /** `v[v.find("[") + 1:v.find("]")]`. A missing `[` starts the slice at
      0; a missing `]` gives the stop -1, which drops the last character. */
  function BracketContent(v: string): (d: string)
    ensures '[' in v && ']' in v && Find(v, '[') < Find(v, ']')
            ==> d == v[Find(v, '[') + 1..Find(v, ']')]
    ensures '[' in v && ']' in v && Find(v, ']') < Find(v, '[') ==> d == []
    ensures '[' !in v && ']' in v ==> d == v[..Find(v, ']')]
    ensures '[' in v && ']' !in v && Find(v, '[') + 1 < |v|
            ==> d == v[Find(v, '[') + 1..|v| - 1]
    ensures '[' in v && ']' !in v && Find(v, '[') + 1 >= |v| - 1 ==> d == []
    ensures '[' !in v && ']' !in v && |v| > 0 ==> d == v[..|v| - 1]
    ensures |v| == 0 ==> d == []
  {
    Slice(v, Find(v, '[') + 1, Find(v, ']'))
  }

  /** `item.split("=")` checked the way `dict()` checks each element:
      exactly two parts, else a ValueError naming the element's position. */
  function ParseItem(item: string, index: nat): (r: Result<Pair, Fault>)
    ensures r.Ok? <==> Count(item, '=') == 1
    ensures r.Ok? ==> r.value.0 + "=" + r.value.1 == item
    ensures r.Ok? ==> '=' !in r.value.0 && '=' !in r.value.1
    ensures r.Err? ==> r.error == BadElement(index, Count(item, '=') + 1)
  {
    var parts := Split(item, '=');
    if |parts| != 2 then Err(BadElement(index, |parts|))
    else
      assert Join(parts, '=') == parts[0] + "=" + parts[1];
      Ok((parts[0], parts[1]))
  }

  /** The generator `item.split("=") for item in items`, consumed by
      `dict()` in order: the first bad element aborts. `index` is the
      position of `items[0]` in the whole list. */
  function ParseItems(items: seq<string>, index: nat): (r: Result<seq<Pair>, Fault>)
    ensures r.Ok? <==> forall i :: 0 <= i < |items| ==> Count(items[i], '=') == 1
    ensures r.Ok? ==> |r.value| == |items|
    ensures r.Ok? ==> forall i :: 0 <= i < |items| ==>
              r.value[i].0 + "=" + r.value[i].1 == items[i]
              && '=' !in r.value[i].0 && '=' !in r.value[i].1
    ensures r.Err? ==> (exists k :: 0 <= k < |items| && Count(items[k], '=') != 1
                          && (forall i :: 0 <= i < k ==> Count(items[i], '=') == 1)
                          && r.error == BadElement(index + k, Count(items[k], '=') + 1))
    decreases |items|
  {
    if |items| == 0 then Ok([])
    else
      var p :- ParseItem(items[0], index);
      var rest :- ParseItems(items[1..], index + 1);
      Ok([p] + rest)
  }

  /** No later pair overrides the key of `pairs[i]`. */
  predicate LastWithKey(pairs: seq<Pair>, i: nat)
    requires i < |pairs|
  {
    forall j :: i < j < |pairs| ==> pairs[j].0 != pairs[i].0
  }

  /** `dict(pairs)`: every key that occurs, bound to the value of its last
      occurrence (`DictLastWins`, `DictFromPairs`). */
  function Dict(pairs: seq<Pair>): (m: map<string, string>)
    ensures m.Keys == set i | 0 <= i < |pairs| :: pairs[i].0
  {
    if |pairs| == 0 then map[]
    else
      var init := pairs[..|pairs| - 1];
      var last := pairs[|pairs| - 1];
      assert (set i | 0 <= i < |pairs| :: pairs[i].0)
          == (set i | 0 <= i < |init| :: init[i].0) + {last.0} by {
        assert forall i :: 0 <= i < |init| ==> init[i] == pairs[i];
      }
      Dict(init)[last.0 := last.1]
  }

  /** A key is bound to the value of its last pair. */
  lemma {:induction false} DictLastWins(pairs: seq<Pair>)
    ensures forall i :: 0 <= i < |pairs| && LastWithKey(pairs, i) ==> Dict(pairs)[pairs[i].0] == pairs[i].1
  {
    if |pairs| > 0 {
      var init := pairs[..|pairs| - 1];
      DictLastWins(init);
      forall i | 0 <= i < |pairs| && LastWithKey(pairs, i)
        ensures Dict(pairs)[pairs[i].0] == pairs[i].1
      {
        if i < |init| {
          assert init[i] == pairs[i];
          assert LastWithKey(init, i);
        }
      }
    }
  }

  /** Every binding comes from one of the pairs. */
  lemma {:induction false} DictFromPairs(pairs: seq<Pair>)
    ensures forall k :: k in Dict(pairs) ==> exists i :: 0 <= i < |pairs| && pairs[i] == (k, Dict(pairs)[k])
  {
    if |pairs| > 0 {
      var init := pairs[..|pairs| - 1];
      var last := pairs[|pairs| - 1];
      DictFromPairs(init);
      forall k | k in Dict(pairs)
        ensures exists i :: 0 <= i < |pairs| && pairs[i] == (k, Dict(pairs)[k])
      {
        if k == last.0 {
          assert pairs[|pairs| - 1] == (k, Dict(pairs)[k]);
        } else {
          var i :| 0 <= i < |init| && init[i] == (k, Dict(init)[k]);
          assert pairs[i] == (k, Dict(pairs)[k]);
        }
      }
    }
  }

  /** The items the loop body hands to `dict()`: normalise ", " to " ",
      take the bracketed text and split it on ",". */
  function EntryItems(v: string): seq<string>
  {
    Split(BracketContent(Replace(v, ", ", " ")), ',')
  }

  /** The key of an item: the text before its first `=`. */
  function ItemKey(item: string): string
  {
    Split(item, '=')[0]
  }

  /** The value of an item: the text after its last `=`. */
  function ItemValue(item: string): string
  {
    var parts := Split(item, '=');
    parts[|parts| - 1]
  }

  /** One iteration of the loop body: `dict()` over the entry's items.
      It fails exactly at the first item without exactly one `=`; else
      every item's key is bound, to the value of its last item. */
  function ParseEntry(v: string): (r: Result<map<string, string>, Fault>)
    ensures r.Ok? <==> forall i :: 0 <= i < |EntryItems(v)| ==> Count(EntryItems(v)[i], '=') == 1
    ensures r.Err? ==> var items := EntryItems(v);
              exists k :: 0 <= k < |items| && Count(items[k], '=') != 1
                && (forall i :: 0 <= i < k ==> Count(items[i], '=') == 1)
                && r.error == BadElement(k, Count(items[k], '=') + 1)
    ensures r.Ok? ==> var items := EntryItems(v);
              r.value.Keys == set i | 0 <= i < |items| :: ItemKey(items[i])
    ensures r.Ok? ==> var items := EntryItems(v);
              forall i :: 0 <= i < |items| && ItemKey(items[i]) in r.value
                && (forall j :: i < j < |items| ==> ItemKey(items[j]) != ItemKey(items[i]))
                ==> r.value[ItemKey(items[i])] == ItemValue(items[i])
    ensures r.Ok? ==> forall k :: k in r.value ==>
              ',' !in k && '=' !in k && ',' !in r.value[k] && '=' !in r.value[k]
  {
    var items := EntryItems(v);
    var pairs :- ParseItems(items, 0);
    DictOfItems(items, pairs);
    Ok(Dict(pairs))
  }

  /** What `Dict` of the parsed items says in terms of the items. */
  lemma DictOfItems(items: seq<string>, pairs: seq<Pair>)
    requires |pairs| == |items|
    requires forall i :: 0 <= i < |items| ==> ',' !in items[i]
    requires forall i :: 0 <= i < |items| ==>
               pairs[i].0 + "=" + pairs[i].1 == items[i] && '=' !in pairs[i].0 && '=' !in pairs[i].1
    ensures Dict(pairs).Keys == set i | 0 <= i < |items| :: ItemKey(items[i])
    ensures forall i :: 0 <= i < |items|
              && (forall j :: i < j < |items| ==> ItemKey(items[j]) != ItemKey(items[i]))
              ==> Dict(pairs)[ItemKey(items[i])] == ItemValue(items[i])
    ensures forall k :: k in Dict(pairs) ==>
              ',' !in k && '=' !in k && ',' !in Dict(pairs)[k] && '=' !in Dict(pairs)[k]
  {
    forall i | 0 <= i < |items|
      ensures ItemKey(items[i]) == pairs[i].0 && ItemValue(items[i]) == pairs[i].1
    {
      ParseItemOfItem(pairs[i], i);
    }
    DictKeysOfItems(items, pairs);
    DictValuesOfItems(items, pairs);
    DictPlain(items, pairs);
  }

  lemma DictKeysOfItems(items: seq<string>, pairs: seq<Pair>)
    requires |pairs| == |items|
    requires forall i :: 0 <= i < |items| ==> ItemKey(items[i]) == pairs[i].0
    ensures Dict(pairs).Keys == set i | 0 <= i < |items| :: ItemKey(items[i])
  {
    assert (set i | 0 <= i < |items| :: ItemKey(items[i])) == set i | 0 <= i < |pairs| :: pairs[i].0;
  }

  lemma DictValuesOfItems(items: seq<string>, pairs: seq<Pair>)
    requires |pairs| == |items|
    requires forall i :: 0 <= i < |items| ==> ItemKey(items[i]) == pairs[i].0 && ItemValue(items[i]) == pairs[i].1
    ensures forall i :: 0 <= i < |items|
              && (forall j :: i < j < |items| ==> ItemKey(items[j]) != ItemKey(items[i]))
              ==> Dict(pairs)[ItemKey(items[i])] == ItemValue(items[i])
  {
    DictLastWins(pairs);
    forall i | 0 <= i < |items| && (forall j :: i < j < |items| ==> ItemKey(items[j]) != ItemKey(items[i]))
      ensures Dict(pairs)[ItemKey(items[i])] == ItemValue(items[i])
    {
      assert LastWithKey(pairs, i);
    }
  }

  lemma DictPlain(items: seq<string>, pairs: seq<Pair>)
    requires |pairs| == |items|
    requires forall i :: 0 <= i < |items| ==> ',' !in items[i]
    requires forall i :: 0 <= i < |items| ==>
               pairs[i].0 + "=" + pairs[i].1 == items[i] && '=' !in pairs[i].0 && '=' !in pairs[i].1
    ensures forall k :: k in Dict(pairs) ==>
              ',' !in k && '=' !in k && ',' !in Dict(pairs)[k] && '=' !in Dict(pairs)[k]
  {
    var m := Dict(pairs);
    DictFromPairs(pairs);
    forall k | k in m
      ensures ',' !in k && '=' !in k && ',' !in m[k] && '=' !in m[k]
    {
      var i :| 0 <= i < |pairs| && pairs[i] == (k, m[k]);
      assert pairs[i].0 + "=" + pairs[i].1 == items[i];
    }
  }

  /** Element `k` is the first failure of the list, and it fails with `e`. */
  predicate FailsAt<T>(results: seq<Result<T, Fault>>, k: nat, e: Fault)
  {
    && k < |results|
    && results[k] == Err(e)
    && forall i :: 0 <= i < k ==> results[i].Ok?
  }

  /** Some element is the first to fail, with `e`. */
  ghost predicate FirstFailure<T>(results: seq<Result<T, Fault>>, e: Fault)
  {
    exists k: nat :: FailsAt(results, k, e)
  }

  /** The loop of `print_fields` over the per-element outcomes, in order:
      the first failure raises, otherwise the last dictionary is kept. */
  function LastValue<T>(results: seq<Result<T, Fault>>): (r: Result<T, Fault>)
    requires |results| > 0
    ensures r.Ok? <==> forall i :: 0 <= i < |results| ==> results[i].Ok?
    ensures r.Ok? ==> r == results[|results| - 1]
    ensures r.Err? ==> FirstFailure(results, r.error)
  {
    if results[0].Err? then
      assert FailsAt(results, 0, results[0].error);
      results[0]
    else if |results| == 1 then results[0]
    else
      var r := LastValue(results[1..]);
      if r.Err? then
        var k: nat :| FailsAt(results[1..], k, r.error);
        assert FailsAt(results, k + 1, r.error);
        r
      else
        assert forall i :: 1 <= i < |results| ==> results[i] == results[1..][i - 1];
        r
  }

  /** `print_fields(values)`: the loop rebinds `res` for every element, so
      only the last element's dictionary is returned, yet every element is
      parsed and the first failure raises. An empty list leaves `res`
      unbound. */
  function PrintFields(values: seq<string>): (r: Result<map<string, string>, Fault>)
    ensures |values| == 0 ==> r == Err(UnboundResult)
    ensures r.Ok? <==> |values| > 0 && forall i :: 0 <= i < |values| ==> ParseEntry(values[i]).Ok?
    ensures r.Ok? ==> r == ParseEntry(values[|values| - 1])
    ensures r.Err? && |values| > 0 ==> FirstFailure(EntryResults(values), r.error)
  {
    if |values| == 0 then Err(UnboundResult) else LastValue(EntryResults(values))
  }

  /** The outcome of the loop body for each element. */
  function EntryResults(values: seq<string>): (rs: seq<Result<map<string, string>, Fault>>)
    ensures |rs| == |values|
    ensures forall i :: 0 <= i < |values| ==> rs[i] == ParseEntry(values[i])
  {
    seq(|values|, i requires 0 <= i < |values| => ParseEntry(values[i]))
  }

  /** Text the field encoding carries unchanged: no separator, no bracket. */
  predicate PlainText(s: string)
  {
    ',' !in s && '=' !in s && '[' !in s && ']' !in s
  }

  /** A key the ", " normalisation cannot touch: it does not start with a
      space, so the comma before it is never followed by one. */
  predicate PlainKey(k: string)
  {
    PlainText(k) && (|k| == 0 || k[0] != ' ')
  }

  /** The `key=value` item of one pair. */
  function Item(p: Pair): string
  {
    p.0 + "=" + p.1
  }

  function Items(pairs: seq<Pair>): (items: seq<string>)
    ensures |items| == |pairs|
    ensures forall i :: 0 <= i < |pairs| ==> items[i] == Item(pairs[i])
  {
    seq(|pairs|, i requires 0 <= i < |pairs| => Item(pairs[i]))
  }

  /** How the tracker renders a sprint's attributes: `[k1=v1,k2=v2,...]`. */
  function FormatEntry(pairs: seq<Pair>): string
  {
    "[" + Join(Items(pairs), ',') + "]"
  }

  /** No comma in `s` is directly followed by a space. */
  predicate NoCommaSpace(s: string)
  {
    forall i :: 0 <= i < |s| - 1 ==> !(s[i] == ',' && s[i + 1] == ' ')
  }

  lemma {:induction false} JoinAvoids(parts: seq<string>, sep: char, c: char)
    requires c != sep
    requires forall i :: 0 <= i < |parts| ==> c !in parts[i]
    ensures c !in Join(parts, sep)
  {
    if |parts| > 1 {
      JoinAvoids(parts[1..], sep, c);
    }
  }

  /** Joining comma-free parts that do not start with a space creates no
      ", ", and the result starts with the first part's first character. */
  lemma {:induction false} JoinNoCommaSpace(parts: seq<string>)
    requires forall i :: 0 <= i < |parts| ==> ',' !in parts[i] && |parts[i]| > 0 && parts[i][0] != ' '
    ensures NoCommaSpace(Join(parts, ','))
    ensures |parts| > 0 ==> |Join(parts, ',')| > 0 && Join(parts, ',')[0] == parts[0][0]
  {
    if |parts| > 1 {
      JoinNoCommaSpace(parts[1..]);
      var p := parts[0];
      var t := Join(parts[1..], ',');
      var s := Join(parts, ',');
      assert s == p + [','] + t;
      forall i | 0 <= i < |s| - 1
        ensures !(s[i] == ',' && s[i + 1] == ' ')
      {
        if i < |p| {
          assert s[i] == p[i];
        } else if i == |p| {
          assert s[i + 1] == t[0] == parts[1][0];
        } else {
          assert s[i] == t[i - |p| - 1] && s[i + 1] == t[i - |p|];
        }
      }
    }
  }

  /** The ", " normalisation leaves text without ", " alone. */
  lemma ReplaceKeeps(s: string)
    requires NoCommaSpace(s)
    ensures Replace(s, ", ", " ") == s
  {
    forall i: nat
      ensures !OccursAt(s, ", ", i)
    {
      if i + 2 <= |s| {
        assert s[i..i + 2] == [s[i], s[i + 1]];
      }
    }
    ReplaceUnchanged(s, ", ", " ");
  }

  lemma ParseItemOfItem(p: Pair, index: nat)
    requires '=' !in p.0 && '=' !in p.1
    ensures Split(Item(p), '=') == [p.0, p.1]
    ensures ParseItem(Item(p), index) == Ok(p)
  {
    SplitAtFirst(p.0, p.1, '=');
    SplitWithoutSeparator(p.1, '=');
    assert Split(Item(p), '=') == [p.0, p.1];
  }

  lemma {:induction false} ParseItemsOfItems(pairs: seq<Pair>, index: nat)
    requires forall i :: 0 <= i < |pairs| ==> '=' !in pairs[i].0 && '=' !in pairs[i].1
    ensures ParseItems(Items(pairs), index) == Ok(pairs)
    decreases |pairs|
  {
    if |pairs| > 0 {
      ParseItemOfItem(pairs[0], index);
      assert Items(pairs)[1..] == Items(pairs[1..]);
      ParseItemsOfItems(pairs[1..], index + 1);
      assert [pairs[0]] + pairs[1..] == pairs;
    }
  }

  /** The items of well-formed pairs carry no comma or bracket and do not
      start with a space. */
  lemma ItemsArePlain(pairs: seq<Pair>)
    requires forall i :: 0 <= i < |pairs| ==> PlainKey(pairs[i].0) && PlainText(pairs[i].1)
    ensures forall i :: 0 <= i < |pairs| ==>
              ',' !in Items(pairs)[i] && '[' !in Items(pairs)[i] && ']' !in Items(pairs)[i]
              && |Items(pairs)[i]| > 0 && Items(pairs)[i][0] != ' '
  {
    var items := Items(pairs);
    forall i | 0 <= i < |items|
      ensures ',' !in items[i] && '[' !in items[i] && ']' !in items[i]
      ensures |items[i]| > 0 && items[i][0] != ' '
    {
      var k := pairs[i].0;
      if |k| == 0 {
        assert items[i][0] == '=';
      } else {
        assert items[i][0] == k[0];
      }
    }
  }

  /** Text before the bracket, then `[text]`: normalisation leaves it alone
      and the bracket slice gives the text back. */
  lemma BracketRoundTrip(prefix: string, inner: string)
    requires NoCommaSpace(prefix) && NoCommaSpace(inner)
    requires '[' !in prefix && ']' !in prefix
    requires '[' !in inner && ']' !in inner
    ensures BracketContent(Replace(prefix + "[" + inner + "]", ", ", " ")) == inner
  {
    var v := prefix + "[" + inner + "]";
    BracketedNoCommaSpace(prefix, inner);
    ReplaceKeeps(v);
    assert v[..|prefix|] == prefix;
    assert v[..|prefix| + |inner| + 1] == prefix + "[" + inner;
    FindFirst(v, '[', |prefix|);
    FindFirst(v, ']', |prefix| + |inner| + 1);
    assert v[|prefix| + 1..|prefix| + |inner| + 1] == inner;
  }

  lemma BracketedNoCommaSpace(prefix: string, inner: string)
    requires NoCommaSpace(prefix) && NoCommaSpace(inner)
    ensures NoCommaSpace(prefix + "[" + inner + "]")
  {
    NoCommaSpaceConcat(prefix, "[");
    NoCommaSpaceConcat(prefix + "[", inner);
    NoCommaSpaceConcat(prefix + "[" + inner, "]");
  }

  /** Gluing two texts without ", " creates one only across the seam. */
  lemma NoCommaSpaceConcat(x: string, y: string)
    requires NoCommaSpace(x) && NoCommaSpace(y)
    requires |x| == 0 || |y| == 0 || x[|x| - 1] != ',' || y[0] != ' '
    ensures NoCommaSpace(x + y)
  {
    var s := x + y;
    forall i | 0 <= i < |s| - 1
      ensures !(s[i] == ',' && s[i + 1] == ' ')
    {
      if i + 1 < |x| {
        assert s[i] == x[i] && s[i + 1] == x[i + 1];
      } else if i + 1 == |x| {
        assert s[i] == x[i] && s[i + 1] == y[0];
      } else {
        assert s[i] == y[i - |x|] && s[i + 1] == y[i + 1 - |x|];
      }
    }
  }

  /** `find` answers the position of the first occurrence. */
  lemma FindFirst(v: string, c: char, k: nat)
    requires k < |v| && v[k] == c && c !in v[..k]
    ensures Find(v, c) == k
  {
    assert forall j :: 0 <= j < k ==> v[j] == v[..k][j];
    assert v[k] == v[..k + 1][k];
  }

  /** Parsing inverts the field encoding: whatever comes before the bracket,
      a non-empty list of pairs with plain keys and values reads back as
      the dictionary of those pairs. */
  lemma FormatThenParse(prefix: string, pairs: seq<Pair>)
    requires |pairs| > 0
    requires forall i :: 0 <= i < |pairs| ==> PlainKey(pairs[i].0) && PlainText(pairs[i].1)
    requires '[' !in prefix && ']' !in prefix && NoCommaSpace(prefix)
    ensures ParseEntry(prefix + FormatEntry(pairs)) == Ok(Dict(pairs))
    ensures PrintFields([prefix + FormatEntry(pairs)]) == Ok(Dict(pairs))
  {
    var v := prefix + FormatEntry(pairs);
    FormattedItems(prefix, pairs);
    ParseItemsOfItems(pairs, 0);
    assert ParseEntry(v) == Ok(Dict(pairs));
    assert [v][0] == v;
  }

  /** The items read out of an encoded field are the pairs' items. */
  lemma FormattedItems(prefix: string, pairs: seq<Pair>)
    requires |pairs| > 0
    requires forall i :: 0 <= i < |pairs| ==> PlainKey(pairs[i].0) && PlainText(pairs[i].1)
    requires '[' !in prefix && ']' !in prefix && NoCommaSpace(prefix)
    ensures EntryItems(prefix + FormatEntry(pairs)) == Items(pairs)
  {
    var items := Items(pairs);
    var inner := Join(items, ',');
    ItemsArePlain(pairs);
    JoinNoCommaSpace(items);
    JoinAvoids(items, ',', '[');
    JoinAvoids(items, ',', ']');
    assert prefix + FormatEntry(pairs) == prefix + "[" + inner + "]";
    BracketRoundTrip(prefix, inner);
    SplitJoin(items, ',');
  }

  /** A `, ` inside the text becomes a single space; the text before it,
      which holds no `, `, is kept as it is. */
  lemma ReplaceSplice(a: string, b: string)
    requires NoCommaSpace(a)
    ensures Replace(a + ", " + b, ", ", " ") == a + " " + Replace(b, ", ", " ")
  {
    var s := a + ", " + b;
    var n := |a|;
    assert s[n..n + 2] == ", ";
    forall j: nat | j < n
      ensures !OccursAt(s, ", ", j)
    {
      assert s[j..j + 2] == [s[j], s[j + 1]];
      if j + 1 < n {
        assert s[j] == a[j] && s[j + 1] == a[j + 1];
      } else {
        assert s[j + 1] == ',';
      }
    }
    assert FirstOccurrence(s, ", ", n);
    ReplaceAtFirst(s, ", ", " ", n);
    assert s[..n] == a;
    assert s[n + 2..] == b;
  }

  /** An item without exactly one `=` in any element's bracket text makes
      the whole call raise the ValueError of `dict()`, for the first
      failing element. */
  lemma PrintFieldsRejectsBadItem(values: seq<string>, j: nat, i: nat)
    requires j < |values|
    requires i < |EntryItems(values[j])| && Count(EntryItems(values[j])[i], '=') != 1
    ensures PrintFields(values).Err? && PrintFields(values).error.BadElement?
  {
    var bad := ParseEntry(values[j]);
    assert bad.Err?;
    var r := PrintFields(values);
    assert r.Err?;
    var rs := EntryResults(values);
    var k: nat :| FailsAt(rs, k, r.error);
    ParseEntryFault(values[k]);
  }

  /** The loop body only ever raises the ValueError of `dict()`. */
  lemma ParseEntryFault(v: string)
    ensures ParseEntry(v).Err? ==> ParseEntry(v).error.BadElement?
  {
  }

  /** A `, ` inside the second value is read as a single space. */
  lemma CommaSpaceInValue(prefix: string, k1: string, v1: string, k2: string, a: string, b: string)
    requires '[' !in prefix && ']' !in prefix && NoCommaSpace(prefix)
    requires PlainKey(k1) && PlainText(v1) && PlainKey(k2) && PlainText(a) && PlainText(b)
    requires k1 != k2
    ensures PrintFields([prefix + "[" + (k1 + "=" + v1 + "," + k2 + "=" + a + ", " + b) + "]"])
            == Ok(map[k1 := v1, k2 := a + " " + b])
  {
    var y := k1 + "=" + v1 + "," + k2 + "=";
    var v := prefix + "[" + (y + a + ", " + b) + "]";
    var w := prefix + "[" + (y + (a + " " + b)) + "]";
    CommaSpaceNormalised(prefix, k1, v1, k2, a, b);
    Regroup(y, a, " ", b);
    TwoPairsParse(prefix, k1, v1, k2, a + " " + b);
    assert EntryItems(v) == EntryItems(w);
    assert [v][0] == v;
  }

  /** The `, ` normalisation of such an entry touches only that `, `. */
  lemma CommaSpaceNormalised(prefix: string, k1: string, v1: string, k2: string, a: string, b: string)
    requires NoCommaSpace(prefix)
    requires PlainKey(k1) && PlainText(v1) && PlainKey(k2) && PlainText(a) && PlainText(b)
    ensures Replace(prefix + "[" + (k1 + "=" + v1 + "," + k2 + "=" + a + ", " + b) + "]", ", ", " ")
            == prefix + "[" + (k1 + "=" + v1 + "," + k2 + "=" + a + " " + b) + "]"
  {
    var joined := k1 + "=" + v1 + "," + k2 + "=" + a;
    TwoItemsJoined(k1, v1, k2, a);
    ItemsArePlain([(k1, v1), (k2, a)]);
    JoinNoCommaSpace(Items([(k1, v1), (k2, a)]));
    NoCommaSpaceConcat(prefix, "[");
    NoCommaSpaceConcat(prefix + "[", joined);
    var left := prefix + "[" + joined;
    var right := b + "]";
    assert NoCommaSpace(right);
    ReplaceSplice(left, right);
    ReplaceKeeps(right);
    Bracketed(prefix + "[", joined, ", ", b, "]");
    Bracketed(prefix + "[", joined, " ", b, "]");
  }

  /** Moves the closing text of an entry into its last piece. */
  lemma Bracketed(p: string, x: string, m: string, b: string, e: string)
    ensures p + (x + m + b) + e == p + x + m + (b + e)
  {
  }

  lemma Regroup(y: string, a: string, m: string, b: string)
    ensures y + (a + m + b) == y + a + m + b
  {
  }

  /** An entry of two pairs with different keys parses to their dictionary,
      and the `, ` normalisation leaves it alone. */
  lemma TwoPairsParse(prefix: string, k1: string, v1: string, k2: string, v2: string)
    requires '[' !in prefix && ']' !in prefix && NoCommaSpace(prefix)
    requires PlainKey(k1) && PlainText(v1) && PlainKey(k2) && PlainText(v2)
    requires k1 != k2
    ensures ParseEntry(prefix + "[" + (k1 + "=" + v1 + "," + k2 + "=" + v2) + "]")
            == Ok(map[k1 := v1, k2 := v2])
    ensures Replace(prefix + "[" + (k1 + "=" + v1 + "," + k2 + "=" + v2) + "]", ", ", " ")
            == prefix + "[" + (k1 + "=" + v1 + "," + k2 + "=" + v2) + "]"
  {
    var pairs: seq<Pair> := [(k1, v1), (k2, v2)];
    var joined := Join(Items(pairs), ',');
    TwoItemsJoined(k1, v1, k2, v2);
    TwoPairsDict(k1, v1, k2, v2);
    FormatThenParse(prefix, pairs);
    ItemsArePlain(pairs);
    JoinNoCommaSpace(Items(pairs));
    BracketedNoCommaSpace(prefix, joined);
    ReplaceKeeps(prefix + "[" + joined + "]");
    Regroup(prefix, "[", joined, "]");
  }

  lemma TwoItemsJoined(k1: string, v1: string, k2: string, v2: string)
    ensures Join(Items([(k1, v1), (k2, v2)]), ',') == k1 + "=" + v1 + "," + k2 + "=" + v2
  {
    var items := Items([(k1, v1), (k2, v2)]);
    assert items[1..] == [Item((k2, v2))];
  }

  lemma TwoPairsDict(k1: string, v1: string, k2: string, v2: string)
    requires k1 != k2
    ensures Dict([(k1, v1), (k2, v2)]) == map[k1 := v1, k2 := v2]
  {
    DictLastWins([(k1, v1), (k2, v2)]);
    assert LastWithKey([(k1, v1), (k2, v2)], 0);
  }

  /** The sprint field of a typical issue. */
  lemma SprintExample()
    ensures PrintFields(["Sprint@1a2b" + "[" + ("id" + "=" + "1" + "," + "name" + "=" + "Sprint 5") + "]"])
            == Ok(map["id" := "1", "name" := "Sprint 5"])
  {
    TwoPairsParse("Sprint@1a2b", "id", "1", "name", "Sprint 5");
    var v := "Sprint@1a2b" + "[" + ("id" + "=" + "1" + "," + "name" + "=" + "Sprint 5") + "]";
    assert [v][0] == v;
  }

  /** The field text with nothing before the bracket. */
  lemma BareEntryExample()
    ensures PrintFields(["[" + ("id" + "=" + "1" + "," + "name" + "=" + "Sprint 5") + "]"])
            == Ok(map["id" := "1", "name" := "Sprint 5"])
  {
    TwoPairsParse("", "id", "1", "name", "Sprint 5");
    var x := "id" + "=" + "1" + "," + "name" + "=" + "Sprint 5";
    NoPrefix("[", x, "]");
    assert ["[" + x + "]"][0] == "[" + x + "]";
  }

  lemma NoPrefix(a: string, x: string, b: string)
    ensures "" + a + x + b == a + x + b
  {
  }

  /** A sprint name holding `, ` comes back with a single space instead. */
  lemma CommaInNameExample()
    ensures PrintFields(["Sprint@1a2b" + "[" + ("id" + "=" + "1" + "," + "name" + "=" + "Sprint 5" + ", " + "Team A") + "]"])
            == Ok(map["id" := "1", "name" := "Sprint 5" + " " + "Team A"])
  {
    CommaSpaceInValue("Sprint@1a2b", "id", "1", "name", "Sprint 5", "Team A");
  }
}

=== FILE: tracker.dfy ===
/** The slice of a tracker issue the script reads, and the shape and
    label predicates it classifies issues with. */
module Tracker {
  import opened Results

  /** Label marking work for the backend team. */
  const BackendLabel: string := "BE"
  /** Label marking work for the frontend team. */
  const FrontendLabel: string := "FE"
  /** Status name of finished work. */
  const DoneStatus: string := "Done"

  /** A raw custom field of an issue: the issue may lack the key, or
      carry it with a null value. */
  datatype Field<+T> = Missing | Null | Present(value: T)

  /** An issue as fetched from the tracker. `subtasks` holds the keys of
      its existing child issues; `sprintField` is the raw sprint custom
      field (a list of encoded strings, null, or not there at all);
      `storyPoints` is the printed story-point value when the issue
      carries that field. */
  datatype Issue = Issue(
    key: string,
    summary: string,
    issueType: string,
    isSubtask: bool,
    status: string,
    labels: seq<string>,
    subtasks: seq<string>,
    sprintField: Field<seq<string>>,
    storyPoints: Option<string>)

  /** Python truthiness of a string. */
  predicate Truthy(s: string)
  {
    |s| > 0
  }

  /** `any(l for l in labels if l == target)`: the generator yields only
      the labels equal to `target`, and `any` asks whether one of them is
      truthy. */
  predicate AnyMatching(labels: seq<string>, target: string)
  {
    if |labels| == 0 then false
    else (labels[0] == target && Truthy(labels[0])) || AnyMatching(labels[1..], target)
  }

  /** For a non-empty label the generator test is plain membership. */
  lemma {:induction false} AnyMatchingIsMembership(labels: seq<string>, target: string)
    requires |target| > 0
    ensures AnyMatching(labels, target) <==> target in labels
  {
    if |labels| > 0 {
      AnyMatchingIsMembership(labels[1..], target);
      assert labels == [labels[0]] + labels[1..];
    }
  }

  /** An empty label never counts, even when the list holds one. */
  lemma {:induction false} EmptyLabelNeverMatches(labels: seq<string>)
    ensures !AnyMatching(labels, "")
  {
    if |labels| > 0 {
      EmptyLabelNeverMatches(labels[1..]);
    }
  }

  predicate IsSubtask(issue: Issue)
  {
    issue.isSubtask
  }

  predicate IsNotDone(issue: Issue)
  {
    issue.status != DoneStatus
  }

  predicate HasNoSubtask(issue: Issue)
  {
    |issue.subtasks| == 0
  }

  function HasBackendLabel(issue: Issue): (r: bool)
    ensures r <==> BackendLabel in issue.labels
  {
    AnyMatchingIsMembership(issue.labels, BackendLabel);
    AnyMatching(issue.labels, BackendLabel)
  }

  function HasFrontendLabel(issue: Issue): (r: bool)
    ensures r <==> FrontendLabel in issue.labels
  {
    AnyMatchingIsMembership(issue.labels, FrontendLabel);
    AnyMatching(issue.labels, FrontendLabel)
  }
}
